=== FILE: README.md ===
# http-showcase: a Dafny model of its pure core

http-showcase is a set of demo servers and clients for HTTP/1.1, HTTP/2 and
HTTP/3 written in Go. Most of it is plumbing around Go's `net/http` and
`quic-go`. This project models the small, deterministic parts and proves
properties about them:

- **Chunked body framing** (HTTP/1.1 server). The chunked handler builds
  its body by hand as `<%x of length>\r\n<payload>\r\n` per payload and
  ends it with `0\r\n\r\n`. The model pairs this with a decoder for the
  chunked transfer coding of section 7.1 of RFC 9112 and proves the round
  trip.
- **Connection counter** (HTTP/1.1 and HTTP/2 servers). The `ConnState`
  callback adds 1 on `StateNew` and subtracts 1 on `StateClosed`, using
  `int32` atomics. The model folds the callback over a trace of
  connection events, with the `int32` wrap-around written out.
- **Request handling rules**:
  - the missing-Host check and the keep-alive echo of both root handlers;
  - the priority-to-delay mapping and push-path normalisation (HTTP/2);
  - the HTTP/3 server's delay validation (`strconv.Atoi`), sleep duration,
    static path mapping, `/streamN` route table, and its packet-loss ->
    logging -> mux middleware chain.
- **Client helpers** (HTTP/3 client): `randomInRange` and the ten stream
  URLs of `testMultipleStreams`. One lemma connects client and server:
  every URL the client builds is routed and accepted by the server.

Randomness and time are parameters. The draw of `rand2.Float64()` is a real
number in [0, 1). The value `rand.Int` returns is an `Option<int>`, where
`None` means the random source failed. Sleeps become returned durations.

Go strings are byte strings. Payloads and bodies are `seq<Octet>`, where an
`Octet` is a character below 256, so `|s|` equals Go's `len(s)`. Go's `int`
is taken to be 64 bits wide.

Layout: `results.dfy`, `wire.dfy`, `fixed_width.dfy` (int32/int64
wrap-around), `numerals.dfy` (`%x`, `%d`, `strconv.Atoi`), `http.dfy`
(headers, requests, responses, `http.Error`), then one module per source
file's core: `chunked.dfy` and `http1_server.dfy`, `conn_state.dfy`,
`http2_server.dfy`, `http3_server.dfy`, `http3_client.dfy`.

## Behaviour of the code worth noting

- The connection counter is not clamped at zero. A `Closed` report with no
  matching `New` drives it negative (`ConnState.StrayCloseGoesNegative`).
- Shutdown calls `server.Shutdown(context.Background())`, which has no
  deadline, so shutdown has no drained or timed-out outcome to model.
- The chunked handler writes its frames and then one terminator directly.
  There is no encoder object, so no write can follow the terminator.
- When the packet-loss middleware drops a request, it logs "Simulating
  packet loss" and returns. The request log line is never written and no
  handler runs. The transport still completes the exchange with its
  default empty 200 response.
- The stream handler's doc comment and log message say the delay is in
  milliseconds, but it sleeps `delay` seconds. The model follows the sleep.
- The HTTP/2 root handler tests the response's own `Connection` header, not
  the request's, so on a fresh writer the keep-alive branch never fires.
  `Http2Server.RootHandler` states that the 200 path never changes a header
  lookup.

## Model

| member | source | states |
|---|---|---|
| Numerals.Format | http1.1/main.go:44 | `%x` (and `%d`) output is non-empty, all lower-case digits of the base, and has no leading zero except "0" itself |
| Numerals.ValueOfFormat | http1.1/main.go:44 | reading a formatted number back gives the number itself |
| Numerals.FormatOfValue | http1.1/main.go:44 | a lower-case digit string without a leading zero is the formatted form of its value, so the format is canonical |
| Numerals.FormatInjective | http3/main.go:90 | different numbers are formatted differently |
| Numerals.Atoi | http3/main.go:29 | `strconv.Atoi` succeeds only with a value inside int64 |
| Numerals.Hex | http1.1/main.go:44 | `%x` of a length is a non-empty run of hex digits whose value is that length. `Chunked.SizeLineRoundTrip` reads it back |
| Numerals.DecimalDenotes | http3/client/client.go:76 | `%d` of a non-negative int is digits denoting it, and of a negative int is '-' followed by digits denoting its magnitude. `Numerals.AtoiOfDecimal` reads it back |
| Numerals.AtoiOfDecimal | http3/client/client.go:76 | `Atoi` reads back every int64 that `%d` writes |
| Chunked.Frame | http1.1/main.go:44 | one `"%x\r\n%s\r\n"` frame: its size line parses to the payload's byte length, followed by exactly the payload and CRLF. `Chunked.DecodeFrame` decodes the whole frame |
| Chunked.Frames | http1.1/main.go:41-45 | the frames written by the loop are empty exactly when there are no payloads. `Chunked.FramesAppend` shows they keep list order |
| Chunked.BodyEndsWithTerminator | http1.1/main.go:41-46 | the hand-built body (`Chunked.Body`) always ends with the terminator `0\r\n\r\n`. `Chunked.DecodeBody` and `Chunked.DecodeBodyIff` read it back |
| Chunked.SizeLineRoundTrip | http1.1/main.go:44 | the hex length prefix and its CRLF parse back to the payload's byte length, and the rest of the input is left untouched |
| Chunked.DecodeFrame | http1.1/main.go:44 | a frame `hex(len)\r\npayload\r\n` of a non-empty payload decodes to exactly that payload, ahead of whatever follows |
| Chunked.FramesAppend | http1.1/main.go:41-45 | framing a list of payloads gives the frames in list order, with no merging or reordering |
| Chunked.DecodeBody | http1.1/main.go:38-46 | round trip: decoding the body returns the original payload list when every payload is non-empty |
| Chunked.DecodeBodyIff | http1.1/main.go:41-46 | the body decodes if and only if no payload is empty, because an empty payload frames as an early terminator |
| Chunked.DecodeRejectsTrailing | http1.1/main.go:45-46 | the body has exactly one terminator, at the end: appending any byte makes it undecodable |
| Http1Server.ChunkedHandler | http1.1/main.go:37-47 | the handler sends 200 with `Transfer-Encoding: chunked`. Its body is exactly the `%x` framing of the three demo payloads, and it decodes to exactly those payloads |
| Http1Server.RootHandler | http1.1/main.go:26-35 | an empty Host gives 400 with the error text and no welcome, and its only headers are `http.Error`'s plain-text Content-Type and `nosniff`. Otherwise it gives 200 with the welcome line, and the response carries `Connection: keep-alive` if and only if the request did |
| ConnState.OnConnState | http1.1/main.go:54-69 | the callback stays within int32 and moves the counter by +1 on New and -1 on Closed, modulo 2^32. It leaves the counter unchanged on Idle, Active and Hijacked |
| ConnState.Count | http1.1/main.go:54-69 | the counter after every callback of a trace stays within int32. `ConnState.CountIsNewMinusClosed` gives its value |
| ConnState.CountIsNewMinusClosed | http1.1/main.go:55-68 | over any trace the counter equals #New - #Closed, wrapped to int32 |
| ConnState.OpenMatchesReports | http2/main.go:112-125 | in a well-ordered trace every Closed belongs to an opened connection, and #New - #Closed is the number of open connections |
| ConnState.CountIsOpenConnections | http2/main.go:111-127 | with a well-ordered trace and fewer than 2^31 open connections, the counter is the open-connection count and never negative |
| ConnState.StrayCloseGoesNegative | http1.1/main.go:61-63 | nothing clamps the counter: a Closed with no New before it leaves -1 |
| Http2Server.RootHandler | http2/main.go:28-39 | an empty Host gives 400 with an early return; `http.Error` drops Content-Length, sets the plain-text Content-Type and `nosniff`, and keeps every other header. Otherwise it gives 200 with an empty body. The keep-alive branch never changes any header lookup, and leaves the header identical unless Connection held several values |
| Http2Server.PriorityDelay | http2/main.go:68-82 | "high" waits 1 s and "low" 3 s (each if and only if), and every other value, absent included, waits 2 s |
| Http2Server.PriorityOrder | http2/main.go:70-80 | high waits strictly less than the default, which waits strictly less than low |
| Http2Server.NormalisePushPath | http2/main.go:100-102 | the result starts with '/', it is either the path itself or '/' + path, and it is the path itself exactly when the path already starts with '/' |
| Http2Server.NormaliseIdempotent | http2/main.go:100-102 | normalising twice is the same as normalising once |
| Http2Server.PushAll | http2/main.go:95-106 | every file is pushed if and only if every file exists. Otherwise the loop stops at the first missing file. Each attempted target is the normalised file name, in order |
| Http2Server.ServerPushHandler | http2/main.go:89-109 | a writer that cannot push pushes nothing. With both files present, "/static/style.css" and "/static/script.js" are pushed. A missing style sheet stops the process before any push. A missing script stops it after the style sheet was pushed |
| Http3Server.ParseDelayAsWritten | http3/main.go:28-33 | an accepted delay is a non-negative value within int64 |
| Http3Server.DelayAcceptedIff | http3/main.go:28-33 | the delay is accepted exactly when it is a non-negative decimal numeral that fits int64. Missing, non-numeric, negative and out-of-range values are refused. An accepted unsigned or '+' numeral yields its value, and an accepted '-' numeral ("-0", "-00", ...) yields 0 |
| Http3Server.SleepAsWritten | http3/main.go:36 | the sleep is the int64 value congruent to delay x 10^9 ns modulo 2^64 |
| Http3Server.OverflowingDelayNeverSleeps | http3/main.go:29-36 | delay=9223372037 is accepted, but its Duration wraps negative, so the handler does not sleep |
| Http3Server.ParseDelay | http3/main.go:28-36 | corrected validation: the as-written acceptance restricted to exactly the delays d with d x 10^9 <= MaxInt64, with the same value |
| Http3Server.SleepFits | http3/main.go:36 | 9223372036 is exactly the largest delay whose sleep d x 10^9 ns fits an int64 Duration |
| Http3Server.AcceptedDelaySleepsExactly | http3/main.go:36 | every delay the corrected validation accepts is slept for exactly delay x 10^9 ns |
| Http3Server.StreamHandler | http3/main.go:25-42 | as written: a delay `Atoi` cannot read, or a negative one, gives 400 with the error text and no sleep. Any other delay is answered with 200 and an empty body after a sleep of the int64 value congruent to delay x 10^9 ns modulo 2^64 |
| Http3Server.StreamHandlerCorrected | http3/main.go:25-42 | corrected: delays whose sleep a Duration cannot hold are refused with 400, and every accepted delay is slept for exactly delay x 10^9 ns |
| Http3Server.StreamHandlersAgree | http3/main.go:29-36 | the two handlers differ exactly on accepted delays above 9223372036 s, where the handler as written answers and the corrected one refuses |
| Http3Server.OverflowingDelayAnswered | http3/main.go:29-36 | the handler as written answers `?delay=9223372037` with a negative sleep, so it does not sleep. The corrected handler refuses it |
| Http3Server.StaticFile | http3/main.go:54-60 | "/" maps to the file name "static/index.html", and any other path p maps to "static" + p |
| Http3Server.StaticFileCollision | http3/main.go:55-59 | two paths map to the same file name if and only if they are equal, or both are among "/" and "/index.html" |
| Http3Server.StreamPath | http3/main.go:90 | `/stream%d` is "/stream" followed by decimal digits denoting the id. `Http3Server.StreamPathInjective` shows distinct ids give distinct patterns |
| Http3Server.StreamPathInjective | http3/main.go:90 | different stream ids get different patterns |
| Http3Server.FindStream | http3/main.go:89-91 | a match is a registered id whose pattern is the path, and no match means no registered id has that pattern |
| Http3Server.RouteOf | http3/main.go:86-93 | a stream route has an id in 1..10 whose pattern is exactly the path. "/push" and only "/push" reaches the push handler. Every path under "/static/" reaches the file server with the prefix stripped. The catch-all gets exactly the paths that match no other pattern |
| Http3Server.StreamRouteTable | http3/main.go:89-91 | "/stream<i>" reaches the handler for i for each i in 1..10, and "/stream0" and "/stream11" onward reach the catch-all |
| Http3Server.Mux | http3/main.go:86-93 | the mux dispatches each request exactly once, to the handler `Http3Server.RouteOf` chooses for its path. `Http3Server.StreamRouteTable` proves which paths reach which stream handler |
| Http3Server.Logging | http3/main.go:62-67 | the logging middleware writes one request log line with verb, path and remote address, then does exactly what the next handler does. `Http3Server.LoggingOutsideWouldLogDrops` shows the line it would write for a dropped request if it were outermost |
| Http3Server.PacketLoss | http3/main.go:44-52 | below the 0.2 loss rate, only the loss is logged and the next handler is not called. Otherwise the next handler runs unchanged. `Http3Server.DroppedSkipsLoggingAndMux` proves the drop skips logging and dispatch |
| Http3Server.Server | http3/main.go:95-96 | the composed chain either logs only the loss, or logs the request and then dispatches it by its path. `Http3Server.DroppedSkipsLoggingAndMux` proves each happens exactly when the draw is on its side of 0.2 |
| Http3Server.DroppedSkipsLoggingAndMux | http3/main.go:44-52 | a request gets no request log line and no handler if and only if the draw is below 0.2, and then the loss line is all it gets. Otherwise it is logged and then routed by its path |
| Http3Server.LoggingOutsideWouldLogDrops | http3/main.go:95-96 | the wrapping order matters: with logging outside packet loss, a dropped request would get a request log line, and as built it does not |
| Http3Client.RandomInRangeAsWritten | http3/client/client.go:104-120 | min > max gives an error with value 0. An error always has value 0. A returned value lies in [min, max]. It panics exactly when the range is wider than int64 can count |
| Http3Client.WideRangePanics | http3/client/client.go:110-113 | randomInRange(0, MaxInt64) computes a wrapped, negative range size and panics in rand.Int |
| Http3Client.RandomInRange | http3/client/client.go:104-120 | corrected: it never panics. min > max gives (0, error). A successful draw d gives d + min within [min, max], and min = max gives exactly min |
| Http3Client.RandomInRangeAgrees | http3/client/client.go:110-119 | the as-written and corrected versions agree on every range whose size fits int64 |
| Http3Client.Url | http3/client/client.go:76 | the URL is the base, then the stream path, then `?delay=` and the delay text. `Http3Client.ClientRequestsAreServed` shows the server routes and accepts it |
| Http3Client.DelayFor | http3/client/client.go:72-76 | a failed draw gives delay 0 (the zero value is used), and a successful one gives a delay in [10, 30]. It is computed with `randomInRange` as written, and `Http3Client.RandomInRangeAgrees` shows this equals the corrected version on 10..30 |
| Http3Client.StreamTargets | http3/client/client.go:69-77 | exactly 10 requests are built, and request i (0-based) targets "/stream{i+1}" |
| Http3Client.StreamUrls | http3/client/client.go:69-77 | exactly 10 URLs, and URL i is `https://localhost:8443/stream{i+1}?delay={d}` |
| Http3Client.DelayRoundTrip | http3/client/client.go:76 | every delay the client writes is accepted with the same value, by the validation as written and by the corrected one |
| Http3Client.HandlerServesDelay | http3/main.go:28-40 | the stream handler as written answers every delay the client can write with 200 after sleeping exactly that many seconds |
| Http3Client.ClientRequestsAreServed | http3/client/client.go:69-77 | URL i reaches the handler of stream i+1. The handler as written accepts its delay (the drawn value, or 0 after a failed draw) and sleeps exactly that many seconds |

## Left out

- Listener start-up, server timeouts, TLS configuration and certificate generation (http1.1/main.go:79-88, http2/main.go:141-150, http3/main.go:98-191): I/O and crypto library calls.
- Signal-driven graceful shutdown (http1.1/main.go:90-104, http2/main.go:152-166): OS signals and goroutines. `Shutdown` is called without a deadline, so there is no drained/timed-out outcome.
- The atomics themselves: the counter is a sequential fold over the order in which the callbacks land.
- Real sleeps: they become returned durations (`Http3Server.StreamHandler`) or seconds (`PriorityDelay`). The one-second pause between chunks (http1.1/main.go:43) changes timing only, not the bytes.
- `rand2.Float64()` and `crypto/rand`: their results are parameters. The draw is compared with 0.2 as a real number, not as a float64.
- `http.ServeFile`, `http.FileServer`, `http.Pusher.Push`, the header-compression, multiplexing and pipelining demo handlers (http2/main.go:42-65, http1.1/main.go:49-52), the HTTP/3 push handler (http3/main.go:69-82) and every log line except the two of the HTTP/3 middleware chain: thin wrappers over library code that is not part of this model.
- `http.ServeFile`'s own behaviour: among other things it redirects a request path ending in `/index.html` to `./`, so `Http3Server.StaticFile` gives the file name handed over, not what is served.
- Go's `ServeMux` path cleaning and trailing-slash redirects, header-name canonicalisation, and URL query parsing: the model takes a clean path, canonical header names and a parsed query.
- The `ResponseWriter`'s own re-chunking of the hand-built body: only the bytes the handler writes are modelled.
- Chunk extensions and trailer fields: the decoder accepts the subset of RFC 9112 section 7.1 that the handler produces, plus upper-case and zero-padded sizes.
- Hijacked connections: `ConnState.WellOrdered` allows a Closed after Hijacked. net/http never reports Closed for a hijacked connection, so such a connection would stay counted. No handler here hijacks.
- http2/client.go entirely, and `processRequest` and the concurrent fetch loop of http3/client/client.go: network I/O and goroutines.

## Findings

| source | as written | input that shows it | evidently intended | confidence | as-written member | corrected member |
|---|---|---|---|---|---|---|
| http3/main.go:29-36 | an accepted delay d is slept for `time.Duration(d) * time.Second`, an int64 product that wraps once d > 9223372036 | `?delay=9223372037`: accepted, but the Duration is -9223372036709551616 ns, so the handler does not sleep | sleep d seconds, and refuse delays whose sleep a Duration cannot hold | not executed; high | Http3Server.OverflowingDelayAnswered | Http3Server.StreamHandlerCorrected |
| http3/client/client.go:110-113 | `rangeSize := max - min + 1` is computed in int and wraps for ranges of 2^63 or more values, and `rand.Int` panics on a size <= 0 | `randomInRange(0, math.MaxInt64)` panics instead of returning a value | return a value in [min, max] for every min <= max | not executed; medium (the only call uses 10..30) | Http3Client.WideRangePanics | Http3Client.RandomInRange |

=== FILE: chunked.dfy ===
/** The chunked body that the HTTP/1.1 server's chunked handler builds by
    hand, and a decoder for the chunked transfer coding of section 7.1 of
    RFC 9112 (without chunk extensions or trailer fields) to read it back. */
module Chunked {

  import opened Results
  import opened Wire
  import opened Numerals

  /** The last-chunk line followed by the empty trailer section. */
  const LastChunk: Bytes := "0\r\n\r\n"

  /** One payload as written by `"%x\r\n%s\r\n"`. */
  function Frame(payload: Bytes): (r: Bytes)
    ensures ParseSizeLine(r) == Ok((|payload|, payload + CRLF))
  {
    SizeLineRoundTrip(|payload|, payload + CRLF);
    assert Hex(|payload|) + CRLF + payload + CRLF == Hex(|payload|) + CRLF + (payload + CRLF);
    Hex(|payload|) + CRLF + payload + CRLF
  }

  /** The frames of all payloads, one after the other. */
  function Frames(payloads: seq<Bytes>): (r: Bytes)
    ensures |r| == 0 <==> |payloads| == 0
  {
    if |payloads| == 0 then [] else Frame(payloads[0]) + Frames(payloads[1..])
  }

  /** The whole body: every frame, then the terminator. */
  function Body(payloads: seq<Bytes>): Bytes {
    Frames(payloads) + LastChunk
  }

  predicate NonEmpty(payloads: seq<Bytes>) {
    forall i | 0 <= i < |payloads| :: |payloads[i]| > 0
  }

  datatype DecodeError =
    | MissingSize      // a chunk does not start with a hexadecimal size
    | MissingSizeCRLF  // the size is not followed by CRLF
    | Truncated        // fewer bytes remain than the size announces
    | MissingDataCRLF  // the chunk data is not followed by CRLF
    | BadTrailer       // the last chunk is not followed by exactly CRLF

  /** The number of hexadecimal digits at the front of `s`. */
  function HexRun(s: Bytes): (k: nat)
    ensures k <= |s|
    ensures forall i | 0 <= i < k :: IsHexDigit(s[i])
    ensures k < |s| ==> !IsHexDigit(s[k])
  {
    if |s| == 0 || !IsHexDigit(s[0]) then 0 else 1 + HexRun(s[1..])
  }

  /** Reads a `chunk-size CRLF` line; yields the size and the bytes after it. */
  function ParseSizeLine(s: Bytes): (r: Result<(nat, Bytes), DecodeError>)
    ensures r.Ok? ==> |r.value.1| + 3 <= |s| && r.value.1 == s[|s| - |r.value.1|..]
  {
    var k := HexRun(s);
    if k == 0 then Err(MissingSize)
    else if |s| < k + 2 || s[k..k + 2] != CRLF then Err(MissingSizeCRLF)
    else
      assert AllDigits(s[..k], 16);
      Ok((Value(s[..k], 16), s[k + 2..]))
  }

  /** Decodes a chunked body into its payloads. Decoding stops at the first
      zero-size chunk, which must be followed by exactly CRLF: nothing may
      come after the terminator. */
  function Decode(s: Bytes): (r: Result<seq<Bytes>, DecodeError>)
    ensures r.Ok? ==> NonEmpty(r.value)
    decreases |s|
  {
    match ParseSizeLine(s)
    case Err(e) => Err(e)
    case Ok((n, rest)) =>
      if n == 0 then
        if rest == CRLF then Ok([]) else Err(BadTrailer)
      else if |rest| < n + 2 then Err(Truncated)
      else if rest[n..n + 2] != CRLF then Err(MissingDataCRLF)
      else
        match Decode(rest[n + 2..])
        case Err(e) => Err(e)
        case Ok(tail) => Ok([rest[..n]] + tail)
  }

  /** The hexadecimal run stops exactly where an all-hex prefix ends. */
  lemma {:induction false} HexRunAppend(d: Bytes, t: Bytes)
    requires forall i | 0 <= i < |d| :: IsHexDigit(d[i])
    ensures HexRun(d + t) == |d| + HexRun(t)
    decreases |d|
  {
    if |d| > 0 {
      assert (d + t)[1..] == d[1..] + t;
      HexRunAppend(d[1..], t);
    } else {
      assert d + t == t;
    }
  }

  /** The length prefix `%x` writes parses back to the payload length. */
  lemma SizeLineRoundTrip(n: nat, rest: Bytes)
    ensures ParseSizeLine(Hex(n) + CRLF + rest) == Ok((n, rest))
  {
    var h := Hex(n);
    var s := h + CRLF + rest;
    assert s == h + (CRLF + rest);
    HexRunAppend(h, CRLF + rest);
    assert HexRun(CRLF + rest) == 0;
    assert s[..|h|] == h;
    assert s[|h|..|h| + 2] == CRLF;
    assert s[|h| + 2..] == rest;
    ValueOfFormat(n, 16);
  }

  /** Decoding one frame in front of more input yields its payload and
      leaves the rest untouched. */
  lemma DecodeFrame(payload: Bytes, rest: Bytes)
    requires |payload| > 0
    ensures Decode(Frame(payload) + rest) ==
            match Decode(rest)
            case Err(e) => Err(e)
            case Ok(tail) => Ok([payload] + tail)
  {
    var n := |payload|;
    var after := payload + CRLF + rest;
    assert Frame(payload) + rest == Hex(n) + CRLF + after;
    SizeLineRoundTrip(n, after);
    assert after[..n] == payload;
    assert after[n..n + 2] == CRLF;
    assert after[n + 2..] == rest;
  }

  /** A non-empty frame ahead of a decodable rest adds its payload in front. */
  lemma FrameThenOk(payload: Bytes, rest: Bytes, payloads: seq<Bytes>)
    requires |payload| > 0 && Decode(rest) == Ok(payloads)
    ensures Decode(Frame(payload) + rest) == Ok([payload] + payloads)
  {
    DecodeFrame(payload, rest);
  }

  /** A non-empty frame ahead of an undecodable rest is undecodable too. */
  lemma FrameThenErr(payload: Bytes, rest: Bytes)
    requires |payload| > 0 && Decode(rest).Err?
    ensures Decode(Frame(payload) + rest).Err?
  {
    DecodeFrame(payload, rest);
  }

  /** Framing never merges or reorders payloads: the frames of a
      concatenation are the concatenation of the frames. */
  lemma {:induction false} FramesAppend(a: seq<Bytes>, b: seq<Bytes>)
    ensures Frames(a + b) == Frames(a) + Frames(b)
    decreases |a|
  {
    if |a| > 0 {
      assert (a + b)[1..] == a[1..] + b;
      FramesAppend(a[1..], b);
    } else {
      assert a + b == b;
    }
  }

  /** The round trip: a chunked decoder reads back exactly the payloads
      that were framed, in order, when every payload is non-empty. */
  lemma {:induction false} DecodeBody(payloads: seq<Bytes>)
    requires NonEmpty(payloads)
    ensures Decode(Body(payloads)) == Ok(payloads)
    decreases |payloads|
  {
    if |payloads| == 0 {
      EmptyBodyIsEmptyFrame();
      DecodeEmptyFrame();
    } else {
      var p := payloads[0];
      BodyCons(payloads);
      DecodeBody(payloads[1..]);
      FrameThenOk(p, Body(payloads[1..]), payloads[1..]);
      assert [p] + payloads[1..] == payloads;
    }
  }

  /** The frame of an empty payload is a last chunk, so whatever follows
      it is a malformed trailer section. */
  lemma EmptyFrameEndsEarly(rest: Bytes)
    requires |rest| > 0
    ensures Decode(Frame([]) + rest) == Err(BadTrailer)
  {
    var after := CRLF + rest;
    FrameThen([], rest);
    SizeLineRoundTrip(0, after);
    ZeroSizeThenMore(Frame([]) + rest, after);
  }

  /** Whatever the payloads, the body ends with the terminator. */
  lemma BodyEndsWithTerminator(payloads: seq<Bytes>)
    ensures |Body(payloads)| >= |LastChunk|
    ensures Body(payloads)[|Body(payloads)| - |LastChunk|..] == LastChunk
  {
  }

  /** With no payloads the body is just the terminator, which is what an
      empty payload frames as. */
  lemma EmptyBodyIsEmptyFrame()
    ensures Body([]) == Frame([])
  {
    assert Hex(0) == "0";
  }

  /** The terminator alone decodes to no payloads. */
  lemma DecodeEmptyFrame()
    ensures Decode(Frame([])) == Ok([])
  {
    assert ParseSizeLine(Frame([])) == Ok((0, CRLF)) by {
      assert [] + CRLF == CRLF;
    }
  }

  /** The body of a non-empty list is its first frame, then the body of
      the rest. */
  lemma BodyCons(payloads: seq<Bytes>)
    requires |payloads| > 0
    ensures Body(payloads) == Frame(payloads[0]) + Body(payloads[1..])
  {
  }

  /** A frame followed by more bytes, regrouped at its size line. */
  lemma FrameThen(payload: Bytes, rest: Bytes)
    ensures Frame(payload) + rest == Hex(|payload|) + CRLF + (payload + CRLF + rest)
  {
  }

  /** A last chunk followed by anything but CRLF is a malformed trailer. */
  lemma ZeroSizeThenMore(s: Bytes, after: Bytes)
    requires ParseSizeLine(s) == Ok((0, after)) && after != CRLF
    ensures Decode(s) == Err(BadTrailer)
  {
  }

  /** An empty payload frames as a premature terminator, so the body of a
      list decodes exactly when every payload in it is non-empty. */
  lemma {:induction false} DecodeBodyIff(payloads: seq<Bytes>)
    ensures Decode(Body(payloads)).Ok? <==> NonEmpty(payloads)
    decreases |payloads|
  {
    if NonEmpty(payloads) {
      DecodeBody(payloads);
    } else {
      var p := payloads[0];
      var tail := payloads[1..];
      BodyCons(payloads);
      if |p| == 0 {
        EmptyFrameEndsEarly(Body(tail));
      } else {
        assert !NonEmpty(tail) by {
          var j :| 0 <= j < |payloads| && |payloads[j]| == 0;
          assert j > 0 && |tail[j - 1]| == 0;
        }
        DecodeBodyIff(tail);
        FrameThenErr(p, Body(tail));
      }
    }
  }

  /** Exactly one terminator, and it is last: any byte appended after the
      body makes it undecodable. */
  lemma {:induction false} DecodeRejectsTrailing(payloads: seq<Bytes>, extra: Bytes)
    requires NonEmpty(payloads)
    requires |extra| > 0
    ensures Decode(Body(payloads) + extra).Err?
    decreases |payloads|
  {
    if |payloads| == 0 {
      EmptyBodyIsEmptyFrame();
      EmptyFrameEndsEarly(extra);
    } else {
      var p := payloads[0];
      var tail := payloads[1..];
      assert Body(payloads) + extra == Frame(p) + (Body(tail) + extra) by {
        BodyCons(payloads);
      }
      DecodeRejectsTrailing(tail, extra);
      FrameThenErr(p, Body(tail) + extra);
    }
  }
}

=== FILE: conn_state.dfy ===
/** The connection counter that both the HTTP/1.1 and the HTTP/2 servers keep
    in their `ConnState` callback: a process-wide `int32` that the callback
    moves by `atomic.AddInt32`. The atomics only make concurrent calls safe;
    the model folds the callback over the order in which the calls land. */
module ConnState {

  import opened FixedWidth

  /** `http.ConnState`. */
  datatype State = New | Idle | Active | Hijacked | Closed

  /** One call of the callback: which connection, and the state it entered. */
  datatype Event = Event(conn: nat, state: State)

  /** The counter's value before any connection was seen. */
  const Initial: int := 0

  /** How far the callback moves the counter in each state. */
  function Delta(s: State): int {
    match s
    case New => 1
    case Closed => -1
    case _ => 0
  }

  /** One callback: `AddInt32(&counter, 1)` on New, `AddInt32(&counter, -1)`
      on Closed, nothing in the other states. There is no clamp at zero. */
  function OnConnState(count: int, s: State): (r: int)
    requires InInt32(count)
    ensures InInt32(r)
    ensures (r - count - Delta(s)) % Two32 == 0
    ensures s !in {New, Closed} ==> r == count
  {
    match s
    case New => Wrap32(count + 1)
    case Closed => Wrap32(count - 1)
    case _ => count
  }

  /** The counter after the callback ran for every event of `trace`, in order. */
  function Count(trace: seq<Event>): (r: int)
    ensures InInt32(r)
    decreases |trace|
  {
    if |trace| == 0 then Initial
    else OnConnState(Count(trace[..|trace| - 1]), trace[|trace| - 1].state)
  }

  function NewCount(trace: seq<Event>): nat
    decreases |trace|
  {
    if |trace| == 0 then 0
    else NewCount(trace[..|trace| - 1]) + (if trace[|trace| - 1].state == New then 1 else 0)
  }

  function ClosedCount(trace: seq<Event>): nat
    decreases |trace|
  {
    if |trace| == 0 then 0
    else ClosedCount(trace[..|trace| - 1]) + (if trace[|trace| - 1].state == Closed then 1 else 0)
  }

  /** The connections that have reported New in `trace`. */
  function Opened(trace: seq<Event>): set<nat>
    decreases |trace|
  {
    if |trace| == 0 then {}
    else
      var last := trace[|trace| - 1];
      Opened(trace[..|trace| - 1]) + (if last.state == New then {last.conn} else {})
  }

  /** The connections that have reported Closed in `trace`. */
  function Shut(trace: seq<Event>): set<nat>
    decreases |trace|
  {
    if |trace| == 0 then {}
    else
      var last := trace[|trace| - 1];
      Shut(trace[..|trace| - 1]) + (if last.state == Closed then {last.conn} else {})
  }

  /** The connections open after `trace`: opened and not yet closed. */
  function Open(trace: seq<Event>): set<nat> {
    Opened(trace) - Shut(trace)
  }

  /** The order the transport promises for each connection: New exactly
      once and first, every later report only while the connection is open,
      Closed at most once and nothing after it. Transitions of different
      connections interleave freely. */
  predicate WellOrdered(trace: seq<Event>)
    decreases |trace|
  {
    |trace| == 0 ||
    (var prefix := trace[..|trace| - 1];
     var e := trace[|trace| - 1];
     && WellOrdered(prefix)
     && (if e.state == New then e.conn !in Opened(prefix) else e.conn in Open(prefix)))
  }

  /** Over any trace the counter is the number of New reports minus the
      number of Closed reports, as an `int32` holds it. */
  lemma {:induction false} CountIsNewMinusClosed(trace: seq<Event>)
    ensures Count(trace) == Wrap32(NewCount(trace) - ClosedCount(trace))
    decreases |trace|
  {
    if |trace| == 0 {
      Wrap32Identity(0);
    } else {
      var prefix := trace[..|trace| - 1];
      var s := trace[|trace| - 1].state;
      var before := NewCount(prefix) - ClosedCount(prefix);
      CountIsNewMinusClosed(prefix);
      Wrap32Add(before, Delta(s));
      if s !in {New, Closed} {
        assert Count(trace) == Count(prefix);
      }
    }
  }

  /** In a well-ordered trace every Closed belongs to an open connection, so
      New reports minus Closed reports is the number of open connections. */
  lemma {:induction false} OpenMatchesReports(trace: seq<Event>)
    requires WellOrdered(trace)
    ensures Shut(trace) <= Opened(trace)
    ensures NewCount(trace) - ClosedCount(trace) == |Open(trace)|
    decreases |trace|
  {
    if |trace| > 0 {
      var prefix := trace[..|trace| - 1];
      var e := trace[|trace| - 1];
      OpenMatchesReports(prefix);
      LastReport(trace);
      if e.state == New {
        OpenGrows(Opened(prefix), Shut(prefix), e.conn);
      } else if e.state == Closed {
        OpenShrinks(Opened(prefix), Shut(prefix), e.conn);
      }
    }
  }

  /** How the last event of a trace moves each tally. */
  lemma LastReport(trace: seq<Event>)
    requires |trace| > 0
    ensures var prefix := trace[..|trace| - 1];
      var e := trace[|trace| - 1];
      && NewCount(trace) == NewCount(prefix) + (if e.state == New then 1 else 0)
      && ClosedCount(trace) == ClosedCount(prefix) + (if e.state == Closed then 1 else 0)
      && Opened(trace) == Opened(prefix) + (if e.state == New then {e.conn} else {})
      && Shut(trace) == Shut(prefix) + (if e.state == Closed then {e.conn} else {})
  {
  }

  lemma OpenGrows(started: set<nat>, ended: set<nat>, c: nat)
    requires c !in started && ended <= started
    ensures (started + {c}) - ended == (started - ended) + {c}
    ensures |(started + {c}) - ended| == |started - ended| + 1
  {
    assert c !in started - ended;
  }

  lemma OpenShrinks(started: set<nat>, ended: set<nat>, c: nat)
    requires c in started - ended
    ensures started - (ended + {c}) == (started - ended) - {c}
    ensures |started - (ended + {c})| == |started - ended| - 1
  {
  }

  /** With a well-ordered trace the counter never goes negative: it is the
      number of open connections, as long as fewer than 2^31 are open. */
  lemma CountIsOpenConnections(trace: seq<Event>)
    requires WellOrdered(trace)
    requires |Open(trace)| < Two31
    ensures Count(trace) == |Open(trace)|
    ensures Count(trace) >= 0
  {
    CountIsNewMinusClosed(trace);
    OpenMatchesReports(trace);
    Wrap32Identity(|Open(trace)|);
  }

  /** Nothing clamps the counter: a Closed report with no New before it
      drives it below zero. */
  lemma StrayCloseGoesNegative(conn: nat)
    ensures !WellOrdered([Event(conn, Closed)])
    ensures Count([Event(conn, Closed)]) == -1
  {
  }
}

=== FILE: fixed_width.dfy ===
/** Two's-complement wrap-around of Go's fixed-width signed integers.
    Dafny's `int` is unbounded, so each place where the source relies on
    `int32` or `int64` arithmetic wraps explicitly through these functions. */
module FixedWidth {

  const Two31: int := 0x8000_0000
  const Two32: int := 0x1_0000_0000
  const Two63: int := 0x8000_0000_0000_0000
  const Two64: int := 0x1_0000_0000_0000_0000

  const MinInt64: int := -Two63
  const MaxInt64: int := Two63 - 1

  predicate InInt32(x: int) { -Two31 <= x < Two31 }

  predicate InInt64(x: int) { MinInt64 <= x <= MaxInt64 }

  /** The value an `int32` holds after an operation whose exact result is `x`. */
  function Wrap32(x: int): (r: int)
    ensures InInt32(r)
    ensures (x - r) % Two32 == 0
  {
    var m := x % Two32;
    if m >= Two31 then m - Two32 else m
  }

  /** The value an `int64` holds after an operation whose exact result is `x`. */
  function Wrap64(x: int): (r: int)
    ensures InInt64(r)
    ensures (x - r) % Two64 == 0
  {
    var m := x % Two64;
    if m >= Two63 then m - Two64 else m
  }

  /** Adding to a wrapped value and wrapping again equals wrapping once:
      the law that lets a sequence of `atomic.AddInt32` calls be summarised. */
  lemma Wrap32Add(a: int, d: int)
    ensures Wrap32(Wrap32(a) + d) == Wrap32(a + d)
  {
  }

  lemma Wrap32Identity(x: int)
    requires InInt32(x)
    ensures Wrap32(x) == x
  {
  }

  lemma Wrap64Identity(x: int)
    requires InInt64(x)
    ensures Wrap64(x) == x
  {
  }
}

=== FILE: http.dfy ===
/** The slice of Go's `net/http` request/response abstraction the handlers
    touch. Header names are taken as already canonical, so `Header.Get` and
    `url.Values.Get` become the same lookup. */
module Http {

  import opened Wire

  /** `http.Header` and `url.Values`: a key maps to a list of values. */
  type Values = map<string, seq<string>>

  /** The first value stored under `key`, or "" when there is none. */
  function Get(h: Values, key: string): string {
    if key in h && |h[key]| > 0 then h[key][0] else ""
  }

  /** Replaces every value stored under `key` with the single `value`. */
  function Set(h: Values, key: string, value: string): (r: Values)
    ensures Get(r, key) == value
    ensures r.Keys == h.Keys + {key}
    ensures forall k | k in h && k != key :: r[k] == h[k]
  {
    h[key := [value]]
  }

  /** `verb` is the request method (GET, POST, ...). */
  datatype Request = Request(
    verb: string,
    host: string,
    path: string,
    remoteAddr: string,
    header: Values,
    query: Values)

  /** What a handler leaves behind: the status code, the response header and
      the bytes written to the body. */
  datatype Response = Response(status: int, header: Values, body: Bytes)

  const StatusOK := 200
  const StatusBadRequest := 400

  /** Drops every value stored under `key`. */
  function Del(h: Values, key: string): (r: Values)
    ensures key !in r && Get(r, key) == ""
    ensures r.Keys == h.Keys - {key}
    ensures forall k | k in r :: r[k] == h[k]
  {
    h - {key}
  }

  /** The content type `http.Error` announces. */
  const PlainText := "text/plain; charset=utf-8"

  /** The headers `http.Error` removes or overwrites. */
  const ErrorHeaders: set<string> := {"Content-Length", "Content-Type", "X-Content-Type-Options"}

  /** `http.Error`: it drops any Content-Length, marks the reply as plain
      text that must not be sniffed, and writes the status code and the
      message followed by a newline. Every other header is left alone. */
  function Error(h: Values, message: Bytes, code: int): (r: Response)
    ensures r.status == code
    ensures r.body == message + "\n"
    ensures "Content-Length" !in r.header
    ensures Get(r.header, "Content-Type") == PlainText
    ensures Get(r.header, "X-Content-Type-Options") == "nosniff"
    ensures r.header.Keys == h.Keys - {"Content-Length"} + {"Content-Type", "X-Content-Type-Options"}
    ensures forall k | k in h && k !in ErrorHeaders :: k in r.header && r.header[k] == h[k]
  {
    var cleared := Del(h, "Content-Length");
    Response(code, Set(Set(cleared, "Content-Type", PlainText), "X-Content-Type-Options", "nosniff"), message + "\n")
  }
}

=== FILE: http1_server.dfy ===
/** The HTTP/1.1 demo server's handlers (http1.1/main.go). */
module Http1Server {

  import opened Results
  import opened Wire
  import opened Http
  import opened Chunked

  const MissingHostMessage: Bytes := "400 Bad Request - Missing Host Header"

  /** `fmt.Fprintln` of the welcome line: the text and a newline. */
  const Welcome: Bytes := "Welcome to the HTTP/1.1 Server!\n"

  /** The root handler on a fresh response writer. A request without a Host
      is refused with 400 and `http.Error`'s plain-text headers, and gets no
      welcome; otherwise the welcome line is written, and a request's
      `Connection: keep-alive` is echoed back. */
  function RootHandler(req: Request): (r: Response)
    ensures req.host == "" <==> r.status == StatusBadRequest
    ensures req.host == "" ==> r.body == MissingHostMessage + "\n" && r.body != Welcome
    ensures req.host != "" ==> r.status == StatusOK && r.body == Welcome
    ensures req.host != "" ==>
      (Get(r.header, "Connection") == "keep-alive" <==> Get(req.header, "Connection") == "keep-alive")
    ensures req.host == "" ==>
      Get(r.header, "Content-Type") == PlainText && Get(r.header, "X-Content-Type-Options") == "nosniff"
    ensures req.host == "" ==> r.header.Keys == {"Content-Type", "X-Content-Type-Options"}
    ensures req.host != "" ==> r.header.Keys <= {"Connection"}
  {
    var blank: Values := map[];
    if req.host == "" then
      Error(blank, MissingHostMessage, StatusBadRequest)
    else
      var h := if Get(req.header, "Connection") == "keep-alive"
               then Set(blank, "Connection", "keep-alive")
               else blank;
      Response(StatusOK, h, Welcome)
  }

  /** The three payloads the chunked handler streams. */
  const DemoChunks: seq<Bytes> := ["Chunk 1: Hello", "Chunk 2: HTTP/1.1", "Chunk 3: Chunked response"]

  /** The chunked handler: it announces chunked transfer coding, sends 200
      and writes its hand-built chunked body, which a chunked decoder reads
      back as exactly the three demo payloads. */
  function ChunkedHandler(): (r: Response)
    ensures r.status == StatusOK
    ensures Get(r.header, "Transfer-Encoding") == "chunked"
    ensures r.body == Body(DemoChunks)
    ensures Decode(r.body) == Ok(DemoChunks)
  {
    DecodeBody(DemoChunks);
    Response(StatusOK, map["Transfer-Encoding" := ["chunked"]], Body(DemoChunks))
  }
}

=== FILE: http2_server.dfy ===
/** The HTTP/2 demo server's handlers (http2/main.go). */
module Http2Server {

  import opened Wire
  import opened Http

  const MissingHostMessage: Bytes := "400 Bad Request - Missing Host Header"

  /** The root handler, given the response writer's header as it stands on
      entry. A request without a Host is refused with 400; `http.Error`
      replaces the content headers and keeps every other one. Otherwise the
      handler writes nothing (its welcome goes to the log), and the
      keep-alive branch consults the RESPONSE header, not the request's: it
      can only rewrite a value that is already there, so every header lookup
      is unchanged, and the header itself is unchanged unless Connection held
      several values. */
  function RootHandler(req: Request, h: Values): (r: Response)
    ensures req.host == "" <==> r.status == StatusBadRequest
    ensures req.host == "" ==> r.body == MissingHostMessage + "\n"
    ensures req.host != "" ==> r.status == StatusOK && r.body == []
    ensures req.host == "" ==>
      "Content-Length" !in r.header && Get(r.header, "Content-Type") == PlainText &&
      Get(r.header, "X-Content-Type-Options") == "nosniff"
    ensures req.host == "" ==> forall k | k in h && k !in ErrorHeaders :: k in r.header && r.header[k] == h[k]
    ensures req.host != "" ==> r.header.Keys == h.Keys
    ensures req.host != "" ==> forall k :: Get(r.header, k) == Get(h, k)
    ensures req.host != "" && ("Connection" !in h || |h["Connection"]| <= 1) ==> r.header == h
  {
    if req.host == "" then
      Error(h, MissingHostMessage, StatusBadRequest)
    else
      var h' := if Get(h, "Connection") == "keep-alive" then Set(h, "Connection", "keep-alive") else h;
      assert "Connection" in h && |h["Connection"]| == 1 ==> h["Connection"] == [h["Connection"][0]];
      Response(StatusOK, h', [])
  }

  /** The delay, in seconds, the priority handler sleeps for the `priority`
      query value: "high" 1, "low" 3, anything else (absent included) 2. */
  function PriorityDelay(query: Values): (seconds: nat)
    ensures Get(query, "priority") == "high" <==> seconds == 1
    ensures Get(query, "priority") == "low" <==> seconds == 3
    ensures seconds in {1, 2, 3}
  {
    match Get(query, "priority")
    case "high" => 1
    case "low" => 3
    case _ => 2
  }

  /** A high-priority request always waits strictly less than any other,
      and a low-priority one strictly more. */
  lemma PriorityOrder(high: Values, other: Values, low: Values)
    requires Get(high, "priority") == "high"
    requires Get(other, "priority") != "high" && Get(other, "priority") != "low"
    requires Get(low, "priority") == "low"
    ensures PriorityDelay(high) < PriorityDelay(other) < PriorityDelay(low)
  {
  }

  /** Push targets are absolute: a path lacking the leading '/' gets one,
      any other path is kept. */
  function NormalisePushPath(p: string): (r: string)
    ensures |r| > 0 && r[0] == '/'
    ensures r == p || r == "/" + p
    ensures r == p <==> (|p| > 0 && p[0] == '/')
  {
    if |p| > 0 && p[0] == '/' then p else "/" + p
  }

  lemma NormaliseIdempotent(p: string)
    ensures NormalisePushPath(NormalisePushPath(p)) == NormalisePushPath(p)
  {
  }

  /** The files the push handler pushes, relative to the working directory. */
  const PushFiles: seq<string> := ["static/style.css", "static/script.js"]

  /** What the push loop did: pushed every file (a failed push is only
      logged, so these are the attempted targets), or stopped the process at
      the first file `os.Stat` could not find. */
  datatype PushOutcome =
    | Pushed(attempted: seq<string>)
    | Fatal(missing: string, attempted: seq<string>)

  /** The push loop over `files`; `present` is the set of files `os.Stat`
      finds. */
  function PushAll(files: seq<string>, present: set<string>): (r: PushOutcome)
    ensures r.Pushed? <==> forall i | 0 <= i < |files| :: files[i] in present
    ensures r.Pushed? ==> |r.attempted| == |files|
    ensures r.Fatal? ==>
      && |r.attempted| < |files|
      && files[|r.attempted|] == r.missing
      && r.missing !in present
      && forall i | 0 <= i < |r.attempted| :: files[i] in present
    ensures forall i | 0 <= i < |r.attempted| :: i < |files| && r.attempted[i] == NormalisePushPath(files[i])
    decreases |files|
  {
    if |files| == 0 then Pushed([])
    else if files[0] !in present then Fatal(files[0], [])
    else
      var target := NormalisePushPath(files[0]);
      match PushAll(files[1..], present)
      case Pushed(rest) => Pushed([target] + rest)
      case Fatal(m, rest) => Fatal(m, [target] + rest)
  }

  /** The push handler: a writer that cannot push does nothing; otherwise
      the two static files are pushed under absolute paths. */
  function ServerPushHandler(canPush: bool, present: set<string>): (r: PushOutcome)
    ensures !canPush ==> r == Pushed([])
    ensures canPush && "static/style.css" in present && "static/script.js" in present ==>
      r == Pushed(["/static/style.css", "/static/script.js"])
    ensures canPush && "static/style.css" !in present ==> r == Fatal("static/style.css", [])
    ensures canPush && "static/style.css" in present && "static/script.js" !in present ==>
      r == Fatal("static/script.js", ["/static/style.css"])
  {
    if !canPush then Pushed([])
    else
      var tail := PushFiles[1..];
      assert tail == ["static/script.js"] && tail[1..] == [];
      assert NormalisePushPath("static/script.js") == "/static/script.js" by {
        assert "/" + "static/script.js" == "/static/script.js";
      }
      assert NormalisePushPath("static/style.css") == "/static/style.css" by {
        assert "/" + "static/style.css" == "/static/style.css";
      }
      assert "static/script.js" in present ==> PushAll(tail, present) == Pushed(["/static/script.js"]);
      assert "static/script.js" !in present ==> PushAll(tail, present) == Fatal("static/script.js", []);
      PushAll(PushFiles, present)
  }
}

=== FILE: http3_client.dfy ===
/** The HTTP/3 client's pure parts (http3/client/client.go): drawing a delay
    in a range and building the ten stream URLs. The value `crypto/rand`
    returns is a parameter. */
module Http3Client {

  import opened Results
  import opened FixedWidth
  import opened Numerals
  import opened Http
  import Http3Server

  /** What `randomInRange` does: return a value and whether it returned an
      error, or panic inside `rand.Int`. */
  datatype Outcome = Returned(value: int, failed: bool) | Panicked

  /** `randomInRange(min, max)` on 64-bit ints, as written. `draw` is what
      `rand.Int` produced, `None` when reading the random source failed.
      The range size `max - min + 1` is computed in `int64` and wraps for
      ranges wider than `MaxInt64`, and `rand.Int` panics on a size <= 0. */
  function RandomInRangeAsWritten(min: int, max: int, draw: Option<int>): (r: Outcome)
    requires InInt64(min) && InInt64(max)
    requires draw.Some? && min <= max && Wrap64(max - min + 1) > 0 ==> 0 <= draw.value < Wrap64(max - min + 1)
    ensures min > max ==> r == Returned(0, true)
    ensures r.Panicked? <==> min <= max && max - min + 1 > MaxInt64
    ensures r.Returned? && r.failed ==> r.value == 0
    ensures r.Returned? && !r.failed ==> min <= r.value <= max
  {
    if min > max then Returned(0, true)
    else
      var rangeSize := Wrap64(max - min + 1);
      if rangeSize <= 0 then Panicked
      else
        Wrap64Identity(max - min + 1);
        match draw
        case None => Returned(0, true)
        case Some(d) => Returned(d + min, false)
  }

  /** The widest range, [0, MaxInt64], has 2^63 values: its size wraps to a
      negative `int64` and the call panics instead of drawing. */
  lemma WideRangePanics()
    ensures RandomInRangeAsWritten(0, MaxInt64, Some(0)) == Panicked
  {
  }

  /** `randomInRange` with the range size kept exact, as a big integer
      would: every `min <= max` yields a value in [min, max]. */
  function RandomInRange(min: int, max: int, draw: Option<int>): (r: Outcome)
    requires draw.Some? && min <= max ==> 0 <= draw.value < max - min + 1
    ensures r.Returned?
    ensures min > max ==> r == Returned(0, true)
    ensures r.failed ==> r.value == 0
    ensures !r.failed ==> min <= max && min <= r.value <= max
    ensures min <= max && draw.Some? ==> !r.failed && r.value - min == draw.value
    ensures min == max && draw.Some? ==> r.value == min
  {
    if min > max then Returned(0, true)
    else
      match draw
      case None => Returned(0, true)
      case Some(d) => Returned(d + min, false)
  }

  /** Where both are defined without overflow they agree. */
  lemma RandomInRangeAgrees(min: int, max: int, draw: Option<int>)
    requires InInt64(min) && InInt64(max) && max - min + 1 <= MaxInt64
    requires draw.Some? && min <= max ==> 0 <= draw.value < max - min + 1
    ensures RandomInRangeAsWritten(min, max, draw) == RandomInRange(min, max, draw)
  {
  }

  const BaseUrl: string := "https://localhost:8443"

  const StreamCount: nat := 10
  const MinDelay: int := 10
  const MaxDelay: int := 30

  /** A stream request: its path and the text of its `delay` parameter. */
  datatype Target = Target(path: string, delay: string)

  function Url(t: Target): (url: string)
    ensures |url| == |BaseUrl| + |t.path| + 7 + |t.delay|
    ensures url[..|BaseUrl|] == BaseUrl
    ensures url[|BaseUrl|..|BaseUrl| + |t.path|] == t.path
    ensures url[|url| - |t.delay| - 7..] == "?delay=" + t.delay
  {
    BaseUrl + t.path + "?delay=" + t.delay
  }

  /** A draw `rand.Int` can produce for the range [MinDelay, MaxDelay]. */
  predicate ValidDraws(draws: seq<Option<int>>) {
    forall i | 0 <= i < |draws| :: draws[i].Some? ==> 0 <= draws[i].value <= MaxDelay - MinDelay
  }

  /** The delay for one stream: the drawn value, or the zero value 0 when
      `randomInRange` failed (the error is only logged). */
  function DelayFor(draw: Option<int>): (d: int)
    requires draw.Some? ==> 0 <= draw.value <= MaxDelay - MinDelay
    ensures draw.None? ==> d == 0
    ensures draw.Some? ==> MinDelay <= d <= MaxDelay
  {
    Wrap64Identity(MaxDelay - MinDelay + 1);
    RandomInRangeAgrees(MinDelay, MaxDelay, draw);
    RandomInRangeAsWritten(MinDelay, MaxDelay, draw).value
  }

  /** The requests `testMultipleStreams` builds, one per stream, in order. */
  function StreamTargets(draws: seq<Option<int>>): (ts: seq<Target>)
    requires |draws| == StreamCount && ValidDraws(draws)
    ensures |ts| == StreamCount
    ensures forall i | 0 <= i < StreamCount :: ts[i].path == Http3Server.StreamPath(i + 1)
    ensures forall i | 0 <= i < StreamCount :: ts[i].delay == Decimal(DelayFor(draws[i]))
  {
    seq(StreamCount, i requires 0 <= i < StreamCount =>
      Target(Http3Server.StreamPath(i + 1), Decimal(DelayFor(draws[i]))))
  }

  /** The ten URLs, `https://localhost:8443/stream<i+1>?delay=<d>`. */
  function StreamUrls(draws: seq<Option<int>>): (urls: seq<string>)
    requires |draws| == StreamCount && ValidDraws(draws)
    ensures |urls| == StreamCount
    ensures forall i | 0 <= i < StreamCount ::
      urls[i] == BaseUrl + "/stream" + Format(i + 1, 10) + "?delay=" + Decimal(DelayFor(draws[i]))
  {
    seq(StreamCount, i requires 0 <= i < StreamCount =>
      StreamUrlAt(draws, i);
      Url(StreamTargets(draws)[i]))
  }

  lemma StreamUrlAt(draws: seq<Option<int>>, i: nat)
    requires |draws| == StreamCount && ValidDraws(draws) && i < StreamCount
    ensures Url(StreamTargets(draws)[i]) ==
      BaseUrl + "/stream" + Format(i + 1, 10) + "?delay=" + Decimal(DelayFor(draws[i]))
  {
    var t := StreamTargets(draws)[i];
    assert t == Target(Http3Server.StreamPath(i + 1), Decimal(DelayFor(draws[i])));
    UrlOfStream(i + 1, t.delay);
  }

  /** The URL of stream `n` spelled out as `Sprintf` writes it. */
  lemma UrlOfStream(n: nat, delay: string)
    ensures Url(Target(Http3Server.StreamPath(n), delay)) == BaseUrl + "/stream" + Format(n, 10) + "?delay=" + delay
  {
  }

  /** Every request the client builds is one the server, as written, serves:
      URL `i` reaches the handler of stream `i + 1`, whose delay check
      accepts the delay (the drawn one in [10, 30], or 0 when the draw
      failed) and which sleeps exactly that many seconds. */
  lemma ClientRequestsAreServed(draws: seq<Option<int>>, i: nat)
    requires |draws| == StreamCount && ValidDraws(draws) && i < StreamCount
    ensures var t := StreamTargets(draws)[i];
      var d := if draws[i].None? then 0 else MinDelay + draws[i].value;
      && Url(t) == BaseUrl + "/stream" + Format(i + 1, 10) + "?delay=" + Decimal(d)
      && Http3Server.RouteOf(t.path) == Http3Server.Stream(i + 1)
      && Http3Server.ParseDelayAsWritten(map["delay" := [t.delay]]) == Some(d)
      && Http3Server.StreamHandler(i + 1, map["delay" := [t.delay]]) ==
         Http3Server.Answered(i + 1, d * Http3Server.NanosPerSecond, Response(StatusOK, map[], []))
  {
    var t := StreamTargets(draws)[i];
    var d := DelayFor(draws[i]);
    assert d == if draws[i].None? then 0 else MinDelay + draws[i].value;
    StreamUrlAt(draws, i);
    assert t.path == Http3Server.StreamPath(i + 1) && t.delay == Decimal(d);
    Http3Server.StreamRouteTable(i + 1);
    HandlerServesDelay(i + 1, d);
  }

  /** The server, as written, answers a delay the client writes by sleeping
      exactly that many seconds. */
  lemma HandlerServesDelay(id: nat, d: nat)
    requires d <= MaxDelay
    ensures var q := map["delay" := [Decimal(d)]];
      && Http3Server.ParseDelayAsWritten(q) == Some(d)
      && Http3Server.StreamHandler(id, q) == Http3Server.Answered(id, d * Http3Server.NanosPerSecond, Response(StatusOK, map[], []))
  {
    DelayRoundTrip(d);
    Wrap64Identity(d * Http3Server.NanosPerSecond);
  }

  /** A delay the client writes with `%d` is read back by the server. */
  lemma DelayRoundTrip(d: nat)
    requires d <= MaxDelay
    ensures Http3Server.ParseDelayAsWritten(map["delay" := [Decimal(d)]]) == Some(d)
    ensures Http3Server.ParseDelay(map["delay" := [Decimal(d)]]) == Some(d)
  {
    var q := map["delay" := [Decimal(d)]];
    assert Get(q, "delay") == Decimal(d);
    AtoiOfDecimal(d);
  }
}

=== FILE: http3_server.dfy ===
/** The HTTP/3 demo server (http3/main.go): the stream handler's delay
    validation, the static path mapping, the route table and the
    packet-loss middleware. The random draw is a parameter. */
module Http3Server {

  import opened Results
  import opened Wire
  import opened FixedWidth
  import opened Numerals
  import opened Http

  const BadDelayMessage: Bytes := "Invalid or missing delay parameter"

  /** `time.Second` in `time.Duration` units. */
  const NanosPerSecond: nat := 1_000_000_000

  /** The longest sleep, in whole seconds, an `int64` Duration can hold. */
  const MaxSleepSeconds: nat := 9_223_372_036

  /** The delay parameter as the handler reads it: `strconv.Atoi` of the
      `delay` query value, refused when that fails or is negative. */
  function ParseDelayAsWritten(query: Values): (r: Option<nat>)
    ensures r.Some? ==> r.value <= MaxInt64
  {
    match Atoi(Get(query, "delay"))
    case Some(v) => if v >= 0 then Some(v) else None
    case None => None
  }

  /** A decimal numeral `Atoi` reads as a value >= 0: optional '+' and
      decimal digits up to the `int64` maximum, or '-' and zeros only. */
  predicate IsNonNegativeNumeral(s: string) {
    var digits := if |s| > 0 && s[0] == '+' then s[1..] else s;
    || (|digits| > 0 && AllDigits(digits, 10) && Value(digits, 10) <= MaxInt64)
    || (|s| > 1 && s[0] == '-' && forall i | 1 <= i < |s| :: s[i] == '0')
  }

  /** The parameter is accepted exactly when it is a non-negative decimal
      numeral; missing, non-numeric, negative and out-of-range values are
      refused. An accepted value is the number the numeral denotes. */
  lemma DelayAcceptedIff(query: Values)
    ensures ParseDelayAsWritten(query).Some? <==> IsNonNegativeNumeral(Get(query, "delay"))
    ensures ParseDelayAsWritten(query).Some? && |Get(query, "delay")| > 0 && Get(query, "delay")[0] != '-' ==>
      var s := Get(query, "delay");
      var digits := if s[0] == '+' then s[1..] else s;
      ParseDelayAsWritten(query).value == Value(digits, 10)
    ensures ParseDelayAsWritten(query).Some? && |Get(query, "delay")| > 0 && Get(query, "delay")[0] == '-' ==>
      ParseDelayAsWritten(query).value == 0
  {
    var s := Get(query, "delay");
    if |s| > 1 && s[0] == '-' && AllDigits(s[1..], 10) {
      ValueZeroIff(s[1..]);
      assert (forall i | 0 <= i < |s[1..]| :: s[1..][i] == '0') <==> (forall i | 1 <= i < |s| :: s[i] == '0') by {
        assert forall i | 0 <= i < |s[1..]| :: s[1..][i] == s[i + 1];
      }
    }
    if |s| > 1 && s[0] == '-' && forall i | 1 <= i < |s| :: s[i] == '0' {
      assert forall i | 0 <= i < |s[1..]| :: s[1..][i] == s[i + 1];
      assert AllDigits(s[1..], 10);
    }
  }

  /** `time.Duration(delay) * time.Second`: an `int64` product, which wraps. */
  function SleepAsWritten(delay: nat): (nanos: int)
    ensures InInt64(nanos)
    ensures (nanos - delay * NanosPerSecond) % Two64 == 0
  {
    Wrap64(delay * NanosPerSecond)
  }

  /** An accepted delay of 9223372037 seconds overflows the Duration to a
      negative value, so `time.Sleep` returns at once instead of sleeping. */
  lemma OverflowingDelayNeverSleeps()
    ensures ParseDelayAsWritten(map["delay" := ["9223372037"]]) == Some(9_223_372_037)
    ensures SleepAsWritten(9_223_372_037) < 0
  {
    var s: string := "9223372037";
    assert Get(map["delay" := [s]], "delay") == s;
    OverflowNumeralValue();
    assert 9_223_372_037 * NanosPerSecond == 9_223_372_037_000_000_000;
    assert Wrap64(9_223_372_037_000_000_000) == 9_223_372_037_000_000_000 - Two64;
  }

  lemma OverflowNumeralValue()
    ensures AllDigits("9223372037", 10)
    ensures Value("9223372037", 10) == 9_223_372_037
  {
    OverflowNumeralPrefix();
    ValueAppendDigit("92233", '7', 10);
    assert "92233" + ['7'] == "922337";
    ValueAppendDigit("922337", '2', 10);
    assert "922337" + ['2'] == "9223372";
    ValueAppendDigit("9223372", '0', 10);
    assert "9223372" + ['0'] == "92233720";
    ValueAppendDigit("92233720", '3', 10);
    assert "92233720" + ['3'] == "922337203";
    ValueAppendDigit("922337203", '7', 10);
    assert "922337203" + ['7'] == "9223372037";
  }

  lemma OverflowNumeralPrefix()
    ensures AllDigits("92233", 10)
    ensures Value("92233", 10) == 92233
  {
    assert Value("", 10) == 0;
    ValueAppendDigit("", '9', 10);
    assert "" + ['9'] == "9";
    ValueAppendDigit("9", '2', 10);
    assert "9" + ['2'] == "92";
    ValueAppendDigit("92", '2', 10);
    assert "92" + ['2'] == "922";
    ValueAppendDigit("922", '3', 10);
    assert "922" + ['3'] == "9223";
    ValueAppendDigit("9223", '3', 10);
    assert "9223" + ['3'] == "92233";
  }


  /** The delay parameter with the evident intent kept: a non-negative
      numeral whose sleep still fits a Duration. */
  function ParseDelay(query: Values): (r: Option<nat>)
    ensures r.Some? <==> ParseDelayAsWritten(query).Some? && ParseDelayAsWritten(query).value * NanosPerSecond <= MaxInt64
    ensures r.Some? ==> r == ParseDelayAsWritten(query)
  {
    match ParseDelayAsWritten(query)
    case Some(d) =>
      SleepFits(d);
      if d <= MaxSleepSeconds then Some(d) else None
    case None => None
  }

  /** `MaxSleepSeconds` is exactly the largest delay whose sleep fits. */
  lemma SleepFits(d: nat)
    ensures d <= MaxSleepSeconds <==> d * NanosPerSecond <= MaxInt64
  {
  }

  /** Every delay `ParseDelay` accepts is slept for exactly that many seconds. */
  lemma AcceptedDelaySleepsExactly(query: Values)
    requires ParseDelay(query).Some?
    ensures SleepAsWritten(ParseDelay(query).value) == ParseDelay(query).value * NanosPerSecond
  {
  }

  /** What the stream handler does with one request. A sleep of at most
      zero nanoseconds is no sleep: `time.Sleep` returns at once. */
  datatype StreamReply =
    | Refused(response: Response)
    | Answered(stream: nat, sleepNanos: int, response: Response)

  /** The handler bound to `/stream<id>`, as written: a delay `Atoi` cannot
      read, or a negative one, gets 400 and no sleep; any other delay is
      slept for as the wrapped `int64` Duration, and the handler answers 200
      with an empty body (it only logs its message). */
  function StreamHandler(id: nat, query: Values): (r: StreamReply)
    ensures r.Refused? <==> ParseDelayAsWritten(query).None?
    ensures r.Refused? ==> r.response.status == StatusBadRequest && r.response.body == BadDelayMessage + "\n"
    ensures r.Answered? ==>
      && r.stream == id
      && InInt64(r.sleepNanos)
      && (r.sleepNanos - ParseDelayAsWritten(query).value * NanosPerSecond) % Two64 == 0
      && r.response == Response(StatusOK, map[], [])
  {
    match ParseDelayAsWritten(query)
    case None => Refused(Error(map[], BadDelayMessage, StatusBadRequest))
    case Some(d) => Answered(id, SleepAsWritten(d), Response(StatusOK, map[], []))
  }

  /** The stream handler with the corrected validation: a delay whose sleep
      a Duration cannot hold is refused like a malformed one, and every
      accepted delay is slept for exactly. */
  function StreamHandlerCorrected(id: nat, query: Values): (r: StreamReply)
    ensures r.Refused? <==> ParseDelay(query).None?
    ensures r.Refused? ==> r.response.status == StatusBadRequest && r.response.body == BadDelayMessage + "\n"
    ensures r.Answered? ==>
      && r.stream == id
      && r.sleepNanos == ParseDelay(query).value * NanosPerSecond
      && r.response == Response(StatusOK, map[], [])
  {
    match ParseDelay(query)
    case None => Refused(Error(map[], BadDelayMessage, StatusBadRequest))
    case Some(d) => Answered(id, d * NanosPerSecond, Response(StatusOK, map[], []))
  }

  /** The two handlers differ exactly on the delays past `MaxSleepSeconds`:
      there the handler as written answers after a wrapped sleep, and the
      corrected one refuses. Everywhere else they are the same. */
  lemma StreamHandlersAgree(id: nat, query: Values)
    ensures StreamHandler(id, query) != StreamHandlerCorrected(id, query) <==>
      ParseDelayAsWritten(query).Some? && ParseDelayAsWritten(query).value > MaxSleepSeconds
    ensures StreamHandler(id, query) != StreamHandlerCorrected(id, query) ==>
      StreamHandler(id, query).Answered? && StreamHandlerCorrected(id, query).Refused?
  {
    if ParseDelay(query).Some? {
      AcceptedDelaySleepsExactly(query);
    }
  }

  /** The smallest delay query whose sleep overflows a Duration. */
  const OverflowQuery: Values := map["delay" := ["9223372037"]]

  /** `?delay=9223372037` reaches the handler as written, which answers 200
      without sleeping; the corrected handler refuses it. */
  lemma OverflowingDelayAnswered(id: nat)
    ensures StreamHandler(id, OverflowQuery) == Answered(id, SleepAsWritten(9_223_372_037), Response(StatusOK, map[], []))
    ensures SleepAsWritten(9_223_372_037) < 0
    ensures StreamHandlerCorrected(id, OverflowQuery).Refused?
  {
    OverflowingDelayNeverSleeps();
  }


  /** The file name the catch-all handler hands to `http.ServeFile` for a
      request path. */
  function StaticFile(path: string): (file: string)
    ensures path == "/" ==> file == "static/index.html"
    ensures path != "/" ==> file == "static" + path
  {
    "static" + (if path == "/" then "/index.html" else path)
  }

  /** Two paths name the same file exactly when they are equal or are "/"
      and "/index.html". */
  lemma StaticFileCollision(p: string, q: string)
    ensures StaticFile(p) == StaticFile(q) <==> p == q || (p in {"/", "/index.html"} && q in {"/", "/index.html"})
  {
    var a := if p == "/" then "/index.html" else p;
    var b := if q == "/" then "/index.html" else q;
    if StaticFile(p) == StaticFile(q) {
      assert ("static" + a)[6..] == a && ("static" + b)[6..] == b;
    }
  }

  /** `fmt.Sprintf("/stream%d", i)`. */
  function StreamPath(i: nat): (path: string)
    ensures |path| > 7 && path[..7] == "/stream"
    ensures AllDigits(path[7..], 10) && Value(path[7..], 10) == i
  {
    ValueOfFormat(i, 10);
    assert ("/stream" + Format(i, 10))[7..] == Format(i, 10);
    "/stream" + Format(i, 10)
  }

  lemma StreamPathInjective(i: nat, j: nat)
    requires StreamPath(i) == StreamPath(j)
    ensures i == j
  {
    assert StreamPath(i)[7..] == Format(i, 10);
    assert StreamPath(j)[7..] == Format(j, 10);
    FormatInjective(i, j, 10);
  }

  /** The first of the stream routes `from`..10 whose pattern is `path`. */
  function FindStream(path: string, from: nat): (r: Option<nat>)
    ensures r.Some? ==> from <= r.value <= 10 && path == StreamPath(r.value)
    ensures r.None? ==> forall j | from <= j <= 10 :: path != StreamPath(j)
    decreases 11 - from
  {
    if from > 10 then None
    else if path == StreamPath(from) then Some(from)
    else FindStream(path, from + 1)
  }

  /** The handlers the server's mux can choose. */
  datatype Route =
    | StaticFiles(relative: string)  // the "/static/" file server, prefix stripped
    | Stream(id: nat)                // "/stream1" .. "/stream10"
    | Push                           // "/push"
    | Root                           // "/": the catch-all static handler

  /** The mux: exact patterns first, then the "/static/" subtree, then "/". */
  function RouteOf(path: string): (r: Route)
    ensures r.Stream? ==> 1 <= r.id <= 10 && path == StreamPath(r.id)
    ensures r.StaticFiles? ==> path == "/static/" + r.relative
    ensures r.Push? <==> path == "/push"
    ensures |path| >= 8 && path[..8] == "/static/" ==> r.StaticFiles?
    ensures r.Root? <==>
      && path != "/push"
      && !(|path| >= 8 && path[..8] == "/static/")
      && forall i | 1 <= i <= 10 :: path != StreamPath(i)
  {
    match FindStream(path, 1)
    case Some(i) =>
      StreamIsNotStatic(i);
      Stream(i)
    case None =>
      if path == "/push" then Push
      else if |path| >= 8 && path[..8] == "/static/" then
        assert path == "/static/" + path[8..];
        StaticFiles(path[8..])
      else Root
  }

  /** No stream pattern lies under "/static/". */
  lemma StreamIsNotStatic(i: nat)
    ensures StreamPath(i)[..8] != "/static/"
  {
    assert StreamPath(i)[3] == 'r';
  }

  /** Each of `/stream1` .. `/stream10` reaches the handler for its own id,
      and `/stream0`, `/stream11` and beyond fall through to the catch-all. */
  lemma StreamRouteTable(n: nat)
    ensures 1 <= n <= 10 ==> RouteOf(StreamPath(n)) == Stream(n)
    ensures (n == 0 || n > 10) ==> RouteOf(StreamPath(n)) == Root
  {
    var path := StreamPath(n);
    match FindStream(path, 1)
    case Some(i) =>
      StreamPathInjective(i, n);
    case None =>
      assert path[..7] == "/stream";
      assert |path| < 8 || path[..8] != "/static/" by {
        if |path| >= 8 { assert path[..8][..7] == path[..7]; }
      }
  }

  /** What the middleware chain observably does with one request. */
  datatype Effect =
    | LossLogged                                          // "Simulating packet loss"
    | Logged(verb: string, path: string, remoteAddr: string)  // "Received request: ..."
    | Dispatched(route: Route)

  type Handler = Request -> seq<Effect>

  /** The mux hands the request to the one handler its path selects. */
  function Mux(req: Request): (r: seq<Effect>)
    ensures |r| == 1 && r[0].Dispatched?
    ensures r[0].route == RouteOf(req.path)
  {
    [Dispatched(RouteOf(req.path))]
  }

  /** The logging middleware logs, then calls the next handler. */
  function Logging(next: Handler): (h: Handler)
    ensures forall req: Request ::
      && |h(req)| == |next(req)| + 1
      && h(req)[0] == Logged(req.verb, req.path, req.remoteAddr)
      && h(req)[1..] == next(req)
  {
    (req: Request) => [Logged(req.verb, req.path, req.remoteAddr)] + next(req)
  }

  /** `rand2.Float64() < 0.2` drops the request. */
  const LossRate: real := 0.2

  /** The packet-loss middleware for one uniform draw in [0, 1): below the
      loss rate it logs the loss and returns without calling the next
      handler; otherwise the next handler runs. */
  function PacketLoss(draw: real, next: Handler): (h: Handler)
    ensures draw < LossRate ==> forall req: Request :: h(req) == [LossLogged]
    ensures draw >= LossRate ==> forall req: Request :: h(req) == next(req)
  {
    (req: Request) => if draw < LossRate then [LossLogged] else next(req)
  }

  /** The server's handler: packet loss wraps logging, which wraps the mux.
      A request is either dropped with only the loss logged, or logged and
      then routed by its path. */
  function Server(draw: real): (h: Handler)
    ensures forall req: Request ::
      h(req) == (if draw < LossRate then [LossLogged]
                 else [Logged(req.verb, req.path, req.remoteAddr), Dispatched(RouteOf(req.path))])
  {
    PacketLoss(draw, Logging(Mux))
  }

  /** A dropped request never reaches the logging middleware or the mux: it
      gets no request log line and no handler exactly when the draw is below
      the loss rate, and then the loss itself is the only thing logged. */
  lemma DroppedSkipsLoggingAndMux(draw: real, req: Request)
    requires 0.0 <= draw < 1.0
    ensures (forall e | e in Server(draw)(req) :: !e.Logged? && !e.Dispatched?) <==> draw < LossRate
    ensures draw < LossRate ==> Server(draw)(req) == [LossLogged]
    ensures draw >= LossRate ==>
      && Server(draw)(req)[0] == Logged(req.verb, req.path, req.remoteAddr)
      && Server(draw)(req)[1] == Dispatched(RouteOf(req.path))
  {
    if draw >= LossRate {
      assert Server(draw)(req)[0] in Server(draw)(req);
    }
  }

  /** The order matters: with logging outside the packet-loss middleware, a
      dropped request would still get a request log line. */
  lemma LoggingOutsideWouldLogDrops(draw: real, req: Request)
    requires 0.0 <= draw < LossRate
    ensures Logging(PacketLoss(draw, Mux))(req) == [Logged(req.verb, req.path, req.remoteAddr), LossLogged]
    ensures Server(draw)(req) == [LossLogged]
  {
  }
}

=== FILE: numerals.dfy ===
/** Numerals as the source writes and reads them: `fmt`'s `%x` and `%d`
    verbs, and `strconv.Atoi`. */
module Numerals {

  import opened Results
  import opened Wire
  import opened FixedWidth

  type Base = b: nat | 2 <= b <= 16 witness 10

  /** A hexadecimal digit in either case, the HEXDIG of RFC 5234. */
  predicate IsHexDigit(c: char) {
    '0' <= c <= '9' || 'a' <= c <= 'f' || 'A' <= c <= 'F'
  }

  /** The digits `fmt` emits: decimal digits and lower-case `a`..`f`. */
  predicate IsLowerDigit(c: char) {
    '0' <= c <= '9' || 'a' <= c <= 'f'
  }

  function DigitValue(c: char): (v: nat)
    requires IsHexDigit(c)
    ensures v < 16
    ensures v < 10 <==> '0' <= c <= '9'
  {
    if '0' <= c <= '9' then c as int - '0' as int
    else if 'a' <= c <= 'f' then c as int - 'a' as int + 10
    else c as int - 'A' as int + 10
  }

  /** The lower-case digit character of value `d`. */
  function DigitChar(d: nat): (c: Octet)
    requires d < 16
    ensures IsLowerDigit(c) && DigitValue(c) == d
  {
    if d < 10 then ('0' as int + d) as char else ('a' as int + d - 10) as char
  }

  predicate IsDigit(c: char, base: Base) {
    IsHexDigit(c) && DigitValue(c) < base
  }

  predicate AllDigits(s: string, base: Base) {
    forall i | 0 <= i < |s| :: IsDigit(s[i], base)
  }

  /** The number a digit string denotes, most significant digit first. */
  function Value(s: string, base: Base): nat
    requires AllDigits(s, base)
    decreases |s|
  {
    if |s| == 0 then 0 else Value(s[..|s| - 1], base) * base + DigitValue(s[|s| - 1])
  }

  lemma ValueAppendDigit(s: string, c: char, base: Base)
    requires AllDigits(s, base) && IsDigit(c, base)
    ensures AllDigits(s + [c], base)
    ensures Value(s + [c], base) == Value(s, base) * base + DigitValue(c)
  {
  }

  /** `n` written in `base` as `fmt` writes it: lower-case digits and no
      leading zero, so zero alone is written "0". */
  function Format(n: nat, base: Base): (r: Bytes)
    ensures |r| >= 1
    ensures AllDigits(r, base)
    ensures forall i | 0 <= i < |r| :: IsLowerDigit(r[i])
    ensures r[0] == '0' ==> n == 0 && r == "0"
    decreases n
  {
    DivMod(n, base);
    if n < base then [DigitChar(n)] else Format(n / base, base) + [DigitChar(n % base)]
  }

  lemma DivMod(n: nat, base: Base)
    ensures n == (n / base) * base + n % base
    ensures 0 <= n % base < base
    ensures n >= base ==> 1 <= n / base < n
  {
  }

  lemma DivModOfSum(q: nat, d: nat, base: Base)
    requires d < base
    ensures (q * base + d) / base == q && (q * base + d) % base == d
  {
    var n := q * base + d;
    DivMod(n, base);
    var k := n / base - q;
    assert k * base == d - n % base;
    MultipleBounds(k, base);
  }

  /** A non-zero multiple of `base` is at least `base` away from zero. */
  lemma MultipleBounds(k: int, base: Base)
    ensures k >= 1 ==> k * base >= base
    ensures k <= -1 ==> k * base + base <= 0
  {
  }

  /** Go's `%x` of a non-negative int. */
  function Hex(n: nat): (r: Bytes)
    ensures |r| > 0 && AllDigits(r, 16) && Value(r, 16) == n
  {
    ValueOfFormat(n, 16);
    Format(n, 16)
  }

  /** Go's `%d` of an int. */
  function Decimal(i: int): (r: Bytes)
    ensures |r| >= 1
  {
    if i < 0 then "-" + Format(-i, 10) else Format(i, 10)
  }

  /** `%d` of a non-negative int is digits denoting it; of a negative int,
      '-' and then digits denoting its magnitude. */
  lemma DecimalDenotes(i: int)
    ensures i >= 0 ==> AllDigits(Decimal(i), 10) && Value(Decimal(i), 10) == i
    ensures i < 0 ==>
      && |Decimal(i)| >= 2 && Decimal(i)[0] == '-'
      && AllDigits(Decimal(i)[1..], 10) && Value(Decimal(i)[1..], 10) == -i
  {
    if i < 0 {
      assert Decimal(i)[1..] == Format(-i, 10);
      ValueOfFormat(-i, 10);
    } else {
      ValueOfFormat(i, 10);
    }
  }

  /** Reading back what `Format` wrote gives the number that was written. */
  lemma {:induction false} ValueOfFormat(n: nat, base: Base)
    ensures Value(Format(n, base), base) == n
    decreases n
  {
    var r := Format(n, base);
    DivMod(n, base);
    if n >= base {
      var front := Format(n / base, base);
      ValueOfFormat(n / base, base);
      assert r[..|r| - 1] == front;
    }
  }

  /** Distinct numbers are written differently. */
  lemma FormatInjective(a: nat, b: nat, base: Base)
    requires Format(a, base) == Format(b, base)
    ensures a == b
  {
    ValueOfFormat(a, base);
    ValueOfFormat(b, base);
  }

  /** `Format` is the only canonical spelling: a string of lower-case digits
      without a leading zero is the `Format` of its own value. */
  lemma {:induction false} FormatOfValue(s: string, base: Base)
    requires |s| >= 1 && AllDigits(s, base)
    requires forall i | 0 <= i < |s| :: IsLowerDigit(s[i])
    requires s[0] == '0' ==> |s| == 1
    ensures Format(Value(s, base), base) == s
    decreases |s|
  {
    var front := s[..|s| - 1];
    var last := DigitValue(s[|s| - 1]);
    if |s| == 1 {
      assert Value(s, base) == last;
      assert DigitChar(last) == s[0] by { LowerDigitDetermined(DigitChar(last), s[0]); }
    } else {
      assert front[0] == s[0];
      FormatOfValue(front, base);
      ValuePositive(front, base);
      FormatStep(Value(front, base), last, base);
      assert DigitChar(last) == s[|s| - 1] by { LowerDigitDetermined(DigitChar(last), s[|s| - 1]); }
      assert s == front + [s[|s| - 1]];
    }
  }

  /** Appending a digit to a positive number appends its character. */
  lemma FormatStep(q: nat, d: nat, base: Base)
    requires q >= 1 && d < base
    ensures Format(q * base + d, base) == Format(q, base) + [DigitChar(d)]
  {
    DivModOfSum(q, d, base);
    assert q * base >= 1 * base;
  }

  /** A lower-case digit is determined by its value. */
  lemma LowerDigitDetermined(c: char, d: char)
    requires IsLowerDigit(c) && IsLowerDigit(d) && DigitValue(c) == DigitValue(d)
    ensures c == d
  {
  }

  /** A digit string not starting with '0' denotes a positive number. */
  lemma {:induction false} ValuePositive(s: string, base: Base)
    requires |s| >= 1 && AllDigits(s, base) && s[0] != '0'
    ensures Value(s, base) >= 1
    decreases |s|
  {
    if |s| > 1 {
      var prefix := s[..|s| - 1];
      assert AllDigits(prefix, base) && prefix[0] == s[0];
      ValuePositive(prefix, base);
      MultipleBounds(Value(prefix, base), base);
    }
  }

  /** A decimal digit string denotes zero exactly when every digit is '0'. */
  lemma {:induction false} ValueZeroIff(s: string)
    requires AllDigits(s, 10)
    ensures Value(s, 10) == 0 <==> forall i | 0 <= i < |s| :: s[i] == '0'
    decreases |s|
  {
    if |s| > 0 {
      ValueZeroIff(s[..|s| - 1]);
      assert forall i | 0 <= i < |s| - 1 :: s[..|s| - 1][i] == s[i];
    }
  }

  /** Go's `strconv.Atoi` on a 64-bit platform: an optional sign, then at
      least one decimal digit and nothing else; a value outside `int64` is a
      range error. `None` stands for the error, whichever kind. */
  function Atoi(s: string): (r: Option<int>)
    ensures r.Some? ==> InInt64(r.value)
  {
    if |s| == 0 then None
    else
      var negative := s[0] == '-';
      var digits := if s[0] == '+' || s[0] == '-' then s[1..] else s;
      if |digits| == 0 || !AllDigits(digits, 10) then None
      else
        var v: int := if negative then 0 - Value(digits, 10) else Value(digits, 10);
        if InInt64(v) then Some(v) else None
  }

  /** `Atoi` reads back every `int64` that `%d` writes. */
  lemma AtoiOfDecimal(i: int)
    requires InInt64(i)
    ensures Atoi(Decimal(i)) == Some(i)
  {
    var s := Decimal(i);
    if i < 0 {
      assert s[1..] == Format(-i, 10);
      ValueOfFormat(-i, 10);
    } else {
      assert IsDigit(s[0], 10);
      ValueOfFormat(i, 10);
    }
  }
}

=== FILE: results.dfy ===
/** Option and Result shapes shared by the whole model. */
module Results {

  datatype Option<+T> = None | Some(value: T)

  datatype Result<+T, +E> = Ok(value: T) | Err(error: E)
}

=== FILE: wire.dfy ===
/** Go strings are byte strings: `len(s)` counts bytes. The model writes a byte
    as a character below 256, so that string literals can be used directly and
    `|s|` of a `Bytes` value is the Go length. */
module Wire {

  type Octet = c: char | c as int < 256 witness '0'

  type Bytes = seq<Octet>

  /** The line delimiter of HTTP/1.1 framing. */
  const CRLF: Bytes := "\r\n"
}
